=== FILE: README.md ===
# DAM_animation — a Dafny model of the geometric pipeline

`DAM_animation.py` turns dummy-atom-model files (`.cif` or `.pdb`
structure files whose atoms carry an occupancy) into a video of the particle
turning in front of a fixed camera, with its principal-axis bounding box and
the box's dimensions written on it. This project models the deterministic
part of that script as pure Dafny functions over exact reals and sequences,
and proves what each stage promises:

- **Atom-record extraction** (`Records`, with Python's string operations in
  `Text`): only lines beginning with `ATOM` yield a record; `.cif` lines are
  read by whitespace token (tokens 9 to 12), `.pdb` lines by character column
  (`[30,38)`, `[38,46)`, `[46,54)`, `[54,60)`, the ATOM record layout of the
  wwPDB PDB File Format version 3.3); the coordinate list and the occupancy
  list grow together, in line order; an empty result is an error naming the
  file.
- **Occupancy normalisation and threshold filter** (`Occupancy`, `Masks`,
  `Extrema`): division by the largest occupancy, then one keep-mask
  `norm >= threshold` applied to coordinates and occupancies alike.
- **Bounding box and label anchors** (`Bounds`, `Labels`): per-axis minimum
  and maximum of the oriented points, side lengths, one label anchor per axis
  and the label text `"<rounded side> Å"`.
- **Frame plan and rotation loop** (`Animation`): `int(duration * fps)`
  frames, `360 * rotations / n_frames` degrees per frame, and one
  rotate-then-capture pair per frame.
- **The run** (`Pipeline`): the stages in the script's order for one file,
  and the loop over files, which stops at the first file that fails.

The number conversion `float(...)` is a parameter `parse: string ->
Option<real>` (`None` is its ValueError), and the principal-component
transform is a parameter `orient: seq<Vec3> -> Option<seq<Vec3>>` (`None` is
the decomposition refusing its input, as it does for fewer than three
points). Reading files, the renderer and the movie writer are not modelled;
the camera is reduced to its accumulated azimuth.

Four facts about the script's behaviour shape the model:

- the frame count is `int(duration * fps)`, a truncation toward zero;
- label anchor `i` is the box centre moved by half the side length along the
  two *other* axes, that is the midpoint of the box edge that runs along axis
  `i` at the maximum of the two other axes;
- the oriented points are used as the transform returns them: the script
  applies no offset, flip or re-centring;
- a file that fails ends the whole run (the script raises), and later files
  are not processed.

## Model

| member | source | states |
|---|---|---|
| Records.FormatOf | DAM_animation.py:70-80 | a file is read as CIF exactly when its lower-cased name ends in `.cif`, as PDB exactly when it ends in `.pdb`, and not at all otherwise |
| Records.LineRecord | DAM_animation.py:72-88 | a line yields no record exactly when it does not begin with ATOM |
| Records.ExtractLines | DAM_animation.py:68-90 | a successful loop has appended to the coordinate list and the occupancy list together, so they have equal length |
| Records.ExtractLinesRecords | DAM_animation.py:68-90 | the loop succeeds exactly when no ATOM line is malformed; then it holds one entry per ATOM line, and entry j of both lists is the record of the j-th ATOM line in file order |
| Records.ExtractLinesError | DAM_animation.py:72-90 | a failed loop reports the first malformed line: that line cannot be read and every earlier line could |
| Records.ExtractLinesNoError | DAM_animation.py:72-90 | a loop that ran to the end met no malformed line |
| Records.Extract | DAM_animation.py:92-96 | a successful parse has as many coordinates as occupancies and at least one atom; the "no ATOM lines" error naming the file occurs exactly when the name has neither extension or the file has no ATOM line |
| Records.CifTokenPositions | DAM_animation.py:73-76 | a CIF ATOM line, its tokens separated by any runs of whitespace and followed by any trailing whitespace such as the line terminator, yields the values of its whitespace tokens 9, 10, 11 and 12 as x, y, z and occupancy, whatever the other tokens hold |
| Records.CifTooFewTokens | DAM_animation.py:74-75 | a CIF ATOM line with fewer than 13 tokens, however they are spaced and terminated, is an error (the index 12 does not exist) |
| Records.PdbColumns | DAM_animation.py:83-88 | a PDB ATOM line yields the values of character columns [30,38), [38,46), [46,54) and [54,60) as x, y, z and occupancy, whatever the rest of the line holds |
| Text.Split | DAM_animation.py:74 | `line.split()` returns words that, with whitespace gaps in front of, between and after them (non-empty between two words), make up the line exactly |
| Text.SplitLayout | DAM_animation.py:74 | splitting a line made of words with any runs of whitespace between them, and any whitespace before and after them, gives back exactly those words in order |
| Text.SplitCharacterised | DAM_animation.py:74 | `line.split()` is a given list of words exactly when the line is those words laid out with whitespace gaps |
| Text.Slice | DAM_animation.py:85-88 | a column range inside the line is that substring; past the end of a short line the field is clamped, down to empty |
| Extrema.Max | DAM_animation.py:98 | the maximum is at least every element and is one of the elements |
| Extrema.Min | DAM_animation.py:108 | the minimum is at most every element and is one of the elements |
| Occupancy.Normalize | DAM_animation.py:98 | each normalised value times the maximum is the original occupancy; an atom of maximal occupancy maps to exactly 1; with a positive maximum every value is at most 1, non-negative occupancies stay non-negative and the order of occupancies is kept |
| Occupancy.Filter | DAM_animation.py:99-102 | atom i is kept exactly when its normalised occupancy is at least the threshold; the kept coordinates and occupancies have equal length, and entry j of both is the j-th kept atom in the original order |
| Occupancy.FilterEmptyIff | DAM_animation.py:98-102 | the filter keeps nothing exactly when every occupancy is below the threshold fraction of the largest one |
| Occupancy.FilterIdempotent | DAM_animation.py:99-102 | filtering the filtered atoms again at the same threshold changes nothing |
| Occupancy.FourAtomExample | DAM_animation.py:98-102 | occupancies 1.0, 0.8, 0.4, 0.1 at threshold 0.5 keep exactly the first two atoms, with normalised occupancies 1.0 and 0.8 |
| Masks.Positions | DAM_animation.py:99-101 | the kept positions are strictly increasing and are exactly the positions where the mask is set |
| Masks.SelectAtPositions | DAM_animation.py:101-102 | boolean-mask indexing yields, in order, the entries at the set positions of the mask and nothing else |
| Bounds.BoundingBox | DAM_animation.py:108-109 | every point lies within the per-axis minimum and maximum, and on each axis some point attains the minimum and some point attains the maximum |
| Bounds.SideIsSpread | DAM_animation.py:110 | each side length is non-negative, no two points are further apart along that axis, and some two points are exactly that far apart |
| Bounds.LabelAnchors | DAM_animation.py:129-137 | anchor i has the box centre's i-th coordinate and the box maximum on each of the two other axes |
| Bounds.AnchorsOnBox | DAM_animation.py:129-137 | every label anchor lies on the surface of the box: within it, and at its minimum or maximum along some axis |
| Bounds.AnchorsOnFarFaces | DAM_animation.py:129-137 | every label anchor is at the box maximum along an axis other than its own |
| Labels.RoundHalfEven | DAM_animation.py:140 | the rounded value is within one half of the side length, and is even when it is exactly one half away |
| Labels.RoundHalfEvenUnique | DAM_animation.py:140 | the rounding is the only integer with those two properties |
| Labels.DecimalRoundTrip | DAM_animation.py:140 | reading back the decimal numeral of a number gives that number |
| Labels.DecimalCanonical | DAM_animation.py:140 | a numeral without leading zeros is the decimal numeral of the number it denotes |
| Labels.ShowsUnique | DAM_animation.py:140 | at most one text is the label of a given whole number, so the label of a side length is determined |
| Labels.LabelText | DAM_animation.py:140 | a label is a decimal numeral without leading zeros followed by " Å", and the numeral denotes the side length rounded half to even |
| Pipeline.DimensionLabels | DAM_animation.py:133-143 | label i sits at anchor i, on the surface of the box and level with the centre along axis i, and its text is the label of the side length along axis i rounded half to even, without leading zeros |
| Animation.Truncate | DAM_animation.py:151 | `int()` truncates toward zero: the result is within one unit of the product and not further from zero |
| Animation.MakePlan | DAM_animation.py:151-152 | planning fails (division by zero) exactly when the product of duration and frame rate truncates to zero; otherwise the frame count is that product truncated toward zero, frame count times angle step is 360 times the number of rotations, a non-negative product gives a positive count and a negative product gives a negative count, for which the loop renders no frame |
| Pipeline.DefaultFrames | DAM_animation.py:15-19 | with the shipped settings (10 seconds, 30 frames per second, one rotation) the plan is 300 frames 1.2 degrees apart, giving 600 camera actions that turn the camera by 360 degrees |
| Animation.Animate | DAM_animation.py:156-158 | the loop performs, per frame and in order, one rotation by the angle step followed by one capture at the accumulated azimuth, and ends at the start azimuth plus frame count times step |
| Animation.ScheduleRotation | DAM_animation.py:156-158 | the rotations of the loop add up to the frame count times the angle step |
| Animation.FullTurn | DAM_animation.py:151-158 | for a positive frame count the rotations add up to exactly 360 times the number of rotations, and the last frame is captured there |
| Pipeline.Frames | DAM_animation.py:151-158 | the camera actions fail exactly when planning fails; otherwise they are the rotate-then-capture schedule of the plan, starting from azimuth 0, two per planned frame, and for a positive frame count they turn the camera by 360 times the number of rotations |
| Pipeline.Stage | DAM_animation.py:108-158 | the box is the bounding box of the oriented points; the three dimension labels of that box are produced exactly when the box is shown; the video's actions are those of the frame plan, and the only failure is a zero frame count |
| Pipeline.Orient | DAM_animation.py:103-158 | an orientation failure is reported exactly when the transform rejects the kept coordinates or changes their number; a zero frame count exactly when the transform succeeds and the frame plan fails; a video keeps the kept occupancies, its points are the transform of the kept coordinates, and the rest is the measuring and animation stage for those points |
| Pipeline.Refine | DAM_animation.py:98-158 | a zero maximum occupancy is reported exactly when it occurs; an empty filter result is reported exactly when no atom's occupancy reaches the threshold fraction of the maximum; an orientation failure is reported exactly when atoms are kept and the transform rejects them or changes their number; a zero frame count is reported exactly when the oriented atoms reach the frame plan and it fails; a video's occupancy j is the j-th kept atom's occupancy divided by the maximum, its points are the transform of the kept coordinates, and its box, labels and camera actions are those the measuring and animation stage gives for those points |
| Pipeline.Process | DAM_animation.py:68-106 | a parse failure is reported as such and no later stage runs; after a successful parse the atoms read go through normalisation, filtering and orientation; a video has as many points as occupancies, at least one, all reaching the threshold |
| Pipeline.ProcessReadsFile | DAM_animation.py:68-106 | a video made from a file shows, in file order, the ATOM lines whose occupancy reaches the threshold fraction of the largest occupancy of all ATOM lines: entry j of the ATOM records is what the j-th ATOM line reads as, the video's occupancy j is the occupancy of the j-th kept ATOM line divided by that maximum, and its points are the transform of the kept lines' coordinates |
| Pipeline.Batch | DAM_animation.py:62-96 | files are processed in order; every video made belongs to the file at its position; the run stops at the first failing file, names it and processes no later file |
| Pipeline.Run | DAM_animation.py:62-160 | the run over the input files yields one video per file processed before the first failure, and that failure is the failure of the next file |

## Left out

- The interactive prompt and the directory search (DAM_animation.py:29-60): user interaction and file-system I/O; the model takes the list of files with their lines.
- The output path `<folder>\<name>.mp4` (DAM_animation.py:63-66): operating-system path handling; the file name passed to the parser is its base name.
- Opening and reading files, text decoding and newline handling: the model takes each file's lines as Python yields them.
- `float(...)`: a parameter, not an IEEE-754 parser; all arithmetic is on exact reals, so "exactly 360 degrees" is exact here and only close in floating point.
- The principal-component analysis (DAM_animation.py:104-106): numerical eigen-decomposition in an external library; a parameter. A transform result with a different number of points than it was given is reported as `OrientationFailed`; the library never returns one.
- The scene, camera preset, zoom, colour map, legend, point size, wireframe box and movie writer (DAM_animation.py:112-128, 141-149, 154, 157-160 beyond the rotate/capture order): rendering and video encoding in an external library. The camera is reduced to an accumulated azimuth angle.
- Printed progress messages: console output.
- Occupancy.Normalize: requires a non-zero maximum. The script divides anyway and gets NaN or infinities, every mask bit is then false and the principal-component step raises on the empty set; the pipeline reports `DegenerateOccupancy` at the point of division instead.
- Labels.LabelText: requires a non-negative length; side lengths are never negative, so the `-0` Python prints for tiny negative numbers does not arise.
- Text.LowerAscii: folds only ASCII capitals; no other character lowers onto a letter of `.cif` or `.pdb`, so the extension test is unaffected.
- `EmptyFilterResult`: when the filter keeps no atom the script hands an empty array to the principal-component fit (DAM_animation.py:105), which raises a ValueError; the model reports that case as its own error before the transform is called, so `orient` never receives an empty list.
- Pipeline.Process: the exceptions a malformed line raises (IndexError, ValueError) are one error, `MalformedRecord`, with the line's index.

=== FILE: animation.dfy ===
/** The frame plan and the rotation loop (DAM_animation.py:151-158). */
module Animation {
  import opened Results

  /** Python's `int(x)` on a number: truncation toward zero. */
  function Truncate(x: real): (n: int)
    ensures x >= 0.0 ==> n as real <= x < n as real + 1.0
    ensures x < 0.0 ==> n as real - 1.0 < x <= n as real
  {
    if x >= 0.0 then x.Floor else -((-x).Floor)
  }

  /** How many frames the video has and how far the camera turns before each
      frame, in degrees. */
  datatype Plan = Plan(frames: int, step: real)
  {
    /** The number of iterations of `range(frames)`: none when the count is
        not positive. */
    function Count(): nat
    {
      if frames > 0 then frames else 0
    }
  }

  /** `n_frames = int(duration * fps)` and
      `angle_step = 360 * rotations / n_frames`; a zero frame count is the
      script's division by zero. */
  function MakePlan(duration: real, fps: real, rotations: real): (r: Result<Plan>)
    ensures r.Err? <==> -1.0 < duration * fps < 1.0
    ensures r.Err? ==> r.error == NoFrames
    ensures r.Ok? ==> r.value.frames == Truncate(duration * fps)
    ensures r.Ok? ==> r.value.frames as real * r.value.step == 360.0 * rotations
    ensures r.Ok? && duration * fps < 0.0 ==> r.value.frames < 0 && r.value.Count() == 0
    ensures r.Ok? && duration * fps >= 0.0 ==>
              0 < r.value.frames && r.value.frames as real <= duration * fps < r.value.frames as real + 1.0
  {
    var n := Truncate(duration * fps);
    if n == 0 then Err(NoFrames)
    else Ok(Plan(n, 360.0 * rotations / n as real))
  }

  /** One action of the animation loop on the camera. */
  datatype Action =
    | Rotate(degrees: real)    // turn the camera azimuthally
    | Capture(azimuth: real)   // write a frame, seen at this total azimuth

  /** The reference order of actions: for frame k, a rotation by the step
      and then a capture at the start azimuth plus (k + 1) steps. */
  function Schedule(plan: Plan, start: real): seq<Action>
  {
    seq(2 * plan.Count(), i requires 0 <= i < 2 * plan.Count() =>
      if i % 2 == 0 then Rotate(plan.step)
      else Capture(start + (i / 2 + 1) as real * plan.step))
  }

  /** The loop `for i in range(n_frames): rotate by angle_step; write frame`,
      recording what it does to a camera that starts at azimuth `start`. */
  method Animate(plan: Plan, start: real) returns (actions: seq<Action>, azimuth: real)
    ensures actions == Schedule(plan, start)
    ensures azimuth == start + plan.Count() as real * plan.step
  {
    actions := [];
    azimuth := start;
    var i := 0;
    while i < plan.frames
      invariant 0 <= i <= plan.Count()
      invariant actions == Schedule(plan, start)[..2 * i]
      invariant azimuth == start + i as real * plan.step
    {
      ghost var s := Schedule(plan, start);
      assert (2 * i) % 2 == 0 && (2 * i + 1) % 2 == 1 && (2 * i + 1) / 2 == i;
      assert s[..2 * (i + 1)] == s[..2 * i] + [s[2 * i], s[2 * i + 1]];
      assert (i + 1) as real * plan.step == i as real * plan.step + plan.step;
      assert s[2 * i] == Rotate(plan.step);
      assert s[2 * i + 1] == Capture(start + (i + 1) as real * plan.step);
      azimuth := azimuth + plan.step;
      assert azimuth == start + (i + 1) as real * plan.step;
      assert Capture(azimuth) == s[2 * i + 1];
      assert [Rotate(plan.step), Capture(azimuth)] == [s[2 * i], s[2 * i + 1]];
      actions := actions + [Rotate(plan.step), Capture(azimuth)];
      i := i + 1;
    }
    assert actions == Schedule(plan, start)[..2 * plan.Count()];
  }

  /** The total of the rotations in a list of actions. */
  function TotalRotation(actions: seq<Action>): real
    decreases |actions|
  {
    if |actions| == 0 then 0.0
    else
      var last := actions[|actions| - 1];
      TotalRotation(actions[..|actions| - 1]) + (if last.Rotate? then last.degrees else 0.0)
  }

  /** The schedule turns the camera by the frame count times the step. */
  lemma {:induction false} ScheduleRotation(plan: Plan, start: real)
    ensures TotalRotation(Schedule(plan, start)) == plan.Count() as real * plan.step
    decreases plan.Count()
  {
    if plan.Count() > 0 {
      var prev := Plan(plan.Count() - 1, plan.step);
      var s := Schedule(plan, start);
      var n := 2 * plan.Count();
      assert s[..n - 1][..n - 2] == Schedule(prev, start);
      assert s[..n - 1] == s[..n][..n - 1];
      ScheduleRotation(prev, start);
    }
  }

  /** A planned video turns the camera by exactly the requested number of
      full turns, and its last frame is captured there. */
  lemma FullTurn(duration: real, fps: real, rotations: real, start: real)
    requires MakePlan(duration, fps, rotations).Ok?
    requires MakePlan(duration, fps, rotations).value.frames > 0
    ensures var s := Schedule(MakePlan(duration, fps, rotations).value, start);
            && TotalRotation(s) == 360.0 * rotations
            && s[|s| - 1] == Capture(start + 360.0 * rotations)
  {
    var plan := MakePlan(duration, fps, rotations).value;
    ScheduleRotation(plan, start);
    var s := Schedule(plan, start);
    var n := 2 * plan.frames;
    assert plan.Count() == plan.frames && |s| == n;
    var i := n - 1;
    assert 0 <= i < 2 * plan.Count() && i % 2 == 1 && i / 2 + 1 == plan.frames;
    assert s[i] == Capture(start + (i / 2 + 1) as real * plan.step);
  }
}

=== FILE: bounds.dfy ===
/** Extents of the oriented point cloud and the anchors of its dimension
    labels (DAM_animation.py:108-110 and 129-137). */
module Bounds {
  import opened Geometry
  import opened Extrema

  /** Per-axis smallest and largest coordinate. */
  datatype Box = Box(lo: Vec3, hi: Vec3)
  {
    /** `max_extents - min_extents`. */
    function Side(): (s: Vec3)
      ensures forall a: Axis :: Coord(s, a) == Coord(hi, a) - Coord(lo, a)
    {
      Vec3(hi.x - lo.x, hi.y - lo.y, hi.z - lo.z)
    }

    /** `(min_extents + max_extents) / 2`. */
    function Centre(): (c: Vec3)
      ensures forall a: Axis :: Coord(c, a) == (Coord(lo, a) + Coord(hi, a)) / 2.0
    {
      Vec3((lo.x + hi.x) / 2.0, (lo.y + hi.y) / 2.0, (lo.z + hi.z) / 2.0)
    }

    predicate Contains(p: Vec3)
    {
      forall a: Axis :: Coord(lo, a) <= Coord(p, a) <= Coord(hi, a)
    }

    /** On the surface of the box: within it, and at its minimum or its
        maximum along some axis. */
    predicate OnSurface(p: Vec3)
    {
      Contains(p) && exists a: Axis :: Coord(p, a) == Coord(lo, a) || Coord(p, a) == Coord(hi, a)
    }
  }

  /** The column-wise minimum and maximum of the points. */
  function BoundingBox(pts: seq<Vec3>): (b: Box)
    requires |pts| > 0
    ensures forall i :: 0 <= i < |pts| ==> b.Contains(pts[i])
    ensures forall a: Axis :: exists i :: 0 <= i < |pts| && Coord(pts[i], a) == Coord(b.lo, a)
    ensures forall a: Axis :: exists i :: 0 <= i < |pts| && Coord(pts[i], a) == Coord(b.hi, a)
  {
    var b := Box(Vec3(Min(Column(pts, 0)), Min(Column(pts, 1)), Min(Column(pts, 2))),
                 Vec3(Max(Column(pts, 0)), Max(Column(pts, 1)), Max(Column(pts, 2))));
    b
  }

  /** The side lengths are the spread of the points along each axis: no two
      points are further apart than the side length, some two are exactly
      that far apart, and so no side is negative. */
  lemma SideIsSpread(pts: seq<Vec3>)
    requires |pts| > 0
    ensures forall a: Axis :: Coord(BoundingBox(pts).Side(), a) >= 0.0
    ensures forall i, j, a: Axis :: 0 <= i < |pts| && 0 <= j < |pts| ==>
              Coord(pts[i], a) - Coord(pts[j], a) <= Coord(BoundingBox(pts).Side(), a)
    ensures forall a: Axis :: exists i, j ::
              && 0 <= i < |pts| && 0 <= j < |pts|
              && Coord(pts[i], a) - Coord(pts[j], a) == Coord(BoundingBox(pts).Side(), a)
  {
    var b := BoundingBox(pts);
    forall a: Axis
      ensures exists i, j ::
                && 0 <= i < |pts| && 0 <= j < |pts|
                && Coord(pts[i], a) - Coord(pts[j], a) == Coord(b.Side(), a)
    {
      var i :| 0 <= i < |pts| && Coord(pts[i], a) == Coord(b.hi, a);
      var j :| 0 <= j < |pts| && Coord(pts[j], a) == Coord(b.lo, a);
      assert Coord(pts[i], a) - Coord(pts[j], a) == Coord(b.Side(), a);
    }
    forall a: Axis ensures Coord(b.Side(), a) >= 0.0 {
      assert b.Contains(pts[0]);
    }
  }

  /** Anchor `a` of the dimension labels: the box centre moved by half the
      side length along each of the two other axes. */
  function LabelAnchors(b: Box): (r: seq<Vec3>)
    ensures |r| == 3
    ensures forall a: Axis :: Coord(r[a], a) == Coord(b.Centre(), a)
    ensures forall a: Axis, c: Axis :: a != c ==> Coord(r[a], c) == Coord(b.hi, c)
  {
    var centre := b.Centre();
    var side := b.Side();
    var half := 0.5;
    [ Add(Add(centre, Scale(Unit(1), side.y * half)), Scale(Unit(2), side.z * half)),
      Add(Add(centre, Scale(Unit(0), side.x * half)), Scale(Unit(2), side.z * half)),
      Add(Add(centre, Scale(Unit(0), side.x * half)), Scale(Unit(1), side.y * half)) ]
  }

  /** Each anchor is the midpoint of the box edge that runs along its own
      axis at the far side of the two other axes, so it lies on the box. */
  lemma AnchorsOnBox(b: Box)
    requires forall a: Axis :: Coord(b.lo, a) <= Coord(b.hi, a)
    ensures forall a: Axis :: b.OnSurface(LabelAnchors(b)[a])
  {
    var r := LabelAnchors(b);
    forall a: Axis ensures b.OnSurface(r[a]) {
      forall c: Axis ensures Coord(b.lo, c) <= Coord(r[a], c) <= Coord(b.hi, c) {
        assert Coord(b.lo, c) <= Coord(b.hi, c);
      }
      var other: Axis := (a + 1) % 3;
      assert Coord(r[a], other) == Coord(b.hi, other);
    }
  }

  /** Anchor `a` lies at the box maximum along an axis other than its own:
      on the far face of that axis, not on a face across its own axis. */
  lemma AnchorsOnFarFaces(b: Box)
    ensures forall a: Axis :: exists c: Axis :: c != a && Coord(LabelAnchors(b)[a], c) == Coord(b.hi, c)
  {
    var r := LabelAnchors(b);
    var y: Axis, x: Axis := 1, 0;
    assert Coord(r[0], y) == Coord(b.hi, y);
    assert Coord(r[1], x) == Coord(b.hi, x);
    assert Coord(r[2], x) == Coord(b.hi, x);
  }
}

=== FILE: extrema.dfy ===
/** Largest and smallest element of a non-empty list of reals: the array
    reductions `.max()` and `.min()` the script applies. */
module Extrema {

  /** A position holding a largest element. */
  function ArgMax(s: seq<real>): (k: nat)
    requires |s| > 0
    ensures k < |s|
    ensures forall i :: 0 <= i < |s| ==> s[i] <= s[k]
    decreases |s|
  {
    if |s| == 1 then 0
    else
      var k := ArgMax(s[..|s| - 1]);
      if s[|s| - 1] > s[k] then |s| - 1 else k
  }

  /** A position holding a smallest element. */
  function ArgMin(s: seq<real>): (k: nat)
    requires |s| > 0
    ensures k < |s|
    ensures forall i :: 0 <= i < |s| ==> s[k] <= s[i]
    decreases |s|
  {
    if |s| == 1 then 0
    else
      var k := ArgMin(s[..|s| - 1]);
      if s[|s| - 1] < s[k] then |s| - 1 else k
  }

  function Max(s: seq<real>): (m: real)
    requires |s| > 0
    ensures forall i :: 0 <= i < |s| ==> s[i] <= m
    ensures exists i :: 0 <= i < |s| && s[i] == m
  {
    s[ArgMax(s)]
  }

  function Min(s: seq<real>): (m: real)
    requires |s| > 0
    ensures forall i :: 0 <= i < |s| ==> m <= s[i]
    ensures exists i :: 0 <= i < |s| && s[i] == m
  {
    s[ArgMin(s)]
  }
}

=== FILE: geometry.dfy ===
/** Points of the particle model and the arrays the script builds from them. */
module Geometry {

  /** A position or displacement, in ångström. */
  datatype Vec3 = Vec3(x: real, y: real, z: real)

  /** Index of a coordinate axis: 0 is x, 1 is y, 2 is z. */
  type Axis = a: nat | a < 3

  function Coord(p: Vec3, a: Axis): real
  {
    if a == 0 then p.x else if a == 1 then p.y else p.z
  }

  function Add(p: Vec3, q: Vec3): (r: Vec3)
    ensures forall a: Axis :: Coord(r, a) == Coord(p, a) + Coord(q, a)
  {
    Vec3(p.x + q.x, p.y + q.y, p.z + q.z)
  }

  function Scale(p: Vec3, k: real): (r: Vec3)
    ensures forall a: Axis :: Coord(r, a) == Coord(p, a) * k
  {
    Vec3(p.x * k, p.y * k, p.z * k)
  }

  /** Row `a` of the 3x3 identity matrix. */
  function Unit(a: Axis): (r: Vec3)
    ensures forall b: Axis :: Coord(r, b) == if a == b then 1.0 else 0.0
  {
    if a == 0 then Vec3(1.0, 0.0, 0.0)
    else if a == 1 then Vec3(0.0, 1.0, 0.0)
    else Vec3(0.0, 0.0, 1.0)
  }

  /** The values of one axis over a list of points: one column of an N x 3 array. */
  function Column(pts: seq<Vec3>, a: Axis): (col: seq<real>)
    ensures |col| == |pts|
    ensures forall i :: 0 <= i < |pts| ==> col[i] == Coord(pts[i], a)
  {
    seq(|pts|, i requires 0 <= i < |pts| => Coord(pts[i], a))
  }

  /** The coordinate list and the occupancy list of a set of atoms, kept as
      two parallel sequences the way the script keeps two arrays. */
  datatype Particles = Particles(coords: seq<Vec3>, occupancy: seq<real>)
  {
    /** Both lists describe the same atoms, one entry per atom. */
    predicate Aligned()
    {
      |coords| == |occupancy|
    }
  }
}

=== FILE: labels.dfy ===
/** The text of a dimension label, `f"{side:.0f} Å"` (DAM_animation.py:140):
    the side length rounded to the nearest integer, ties to even, written in
    decimal and followed by a space and the ångström sign. */
module Labels {

  /** The nearest integer, and on a tie the even one of the two. */
  function RoundHalfEven(x: real): (n: int)
    ensures -0.5 <= x - n as real <= 0.5
    ensures (x - n as real == 0.5 || x - n as real == -0.5) ==> n % 2 == 0
  {
    var f := x.Floor;
    var d := x - f as real;
    if d < 0.5 then f
    else if d > 0.5 then f + 1
    else if f % 2 == 0 then f
    else f + 1
  }

  /** The rounding is the only integer within half a unit, and the only even
      one when two are exactly half a unit away. */
  lemma RoundHalfEvenUnique(x: real, n: int)
    requires -0.5 <= x - n as real <= 0.5
    requires (x - n as real == 0.5 || x - n as real == -0.5) ==> n % 2 == 0
    ensures RoundHalfEven(x) == n
  {
  }

  function DigitChar(d: nat): (c: char)
    requires d < 10
    ensures '0' <= c <= '9'
  {
    ('0' as int + d) as char
  }

  predicate AllDigits(s: string)
  {
    forall i :: 0 <= i < |s| ==> '0' <= s[i] <= '9'
  }

  /** The decimal numeral of `n`, without leading zeros. */
  function Decimal(n: nat): (s: string)
    ensures |s| > 0 && AllDigits(s)
    ensures |s| > 1 ==> s[0] != '0'
    decreases n
  {
    if n < 10 then [DigitChar(n)]
    else Decimal(n / 10) + [DigitChar(n % 10)]
  }

  /** The number a string of decimal digits denotes. */
  function DecimalValue(s: string): nat
    requires AllDigits(s)
    decreases |s|
  {
    if |s| == 0 then 0
    else DecimalValue(s[..|s| - 1]) * 10 + (s[|s| - 1] as int - '0' as int)
  }

  /** Reading a numeral back gives the number written. */
  lemma {:induction false} DecimalRoundTrip(n: nat)
    ensures DecimalValue(Decimal(n)) == n
    decreases n
  {
    var s := Decimal(n);
    if n >= 10 {
      DecimalRoundTrip(n / 10);
      assert s[..|s| - 1] == Decimal(n / 10);
    }
  }

  /** `t` is the label of the whole number `n`: a decimal numeral without
      leading zeros that denotes `n`, then a space and the ångström sign. */
  predicate Shows(t: string, n: int)
  {
    && |t| > 2 && t[|t| - 2..] == " Å" && AllDigits(t[..|t| - 2])
    && DecimalValue(t[..|t| - 2]) == n
    && (|t| > 3 ==> t[0] != '0')
  }

  /** A numeral starting with a non-zero digit denotes a positive number. */
  lemma {:induction false} LeadingDigitPositive(s: string)
    requires |s| > 0 && AllDigits(s) && s[0] != '0'
    ensures DecimalValue(s) > 0
    decreases |s|
  {
    if |s| > 1 {
      LeadingDigitPositive(s[..|s| - 1]);
    }
  }

  /** A numeral without leading zeros is the decimal numeral of its value. */
  lemma {:induction false} DecimalCanonical(s: string)
    requires |s| > 0 && AllDigits(s) && (|s| > 1 ==> s[0] != '0')
    ensures s == Decimal(DecimalValue(s))
    decreases |s|
  {
    var n := DecimalValue(s);
    var d := s[|s| - 1] as int - '0' as int;
    if |s| == 1 {
      assert DecimalValue(s[..|s| - 1]) == 0;
      assert n == d;
      assert DigitChar(n) == s[0];
    } else {
      var front := s[..|s| - 1];
      LeadingDigitPositive(front);
      DecimalCanonical(front);
      assert n / 10 == DecimalValue(front) && n % 10 == d;
      assert DigitChar(n % 10) == s[|s| - 1];
      assert s == front + [s[|s| - 1]];
    }
  }

  /** At most one text is the label of a given number. */
  lemma ShowsUnique(t: string, u: string, n: int)
    requires Shows(t, n) && Shows(u, n)
    ensures t == u
  {
    DecimalCanonical(t[..|t| - 2]);
    DecimalCanonical(u[..|u| - 2]);
    assert t == t[..|t| - 2] + " Å";
    assert u == u[..|u| - 2] + " Å";
  }

  /** The label of a side length: the side length rounded half to even,
      written without leading zeros and followed by the unit. */
  function LabelText(side: real): (t: string)
    requires side >= 0.0
    ensures Shows(t, RoundHalfEven(side))
  {
    var n := RoundHalfEven(side);
    var digits := Decimal(n);
    DecimalRoundTrip(n);
    var t := digits + " Å";
    assert t[..|t| - 2] == digits;
    t
  }
}

=== FILE: masks.dfy ===
/** Boolean-mask indexing (`array[mask]`): keep the entries whose mask bit is
    set, in their original order. */
module Masks {

  /** The entries of `xs` whose mask bit is set, in order. */
  function Select<T>(xs: seq<T>, keep: seq<bool>): (r: seq<T>)
    requires |xs| == |keep|
    ensures |r| <= |xs|
    decreases |xs|
  {
    if |xs| == 0 then []
    else
      Select(xs[..|xs| - 1], keep[..|keep| - 1])
      + (if keep[|keep| - 1] then [xs[|xs| - 1]] else [])
  }

  /** The set positions of a mask, in increasing order: the reference
      description of which entries `Select` keeps. */
  function Positions(keep: seq<bool>): (p: seq<nat>)
    ensures forall j :: 0 <= j < |p| ==> p[j] < |keep| && keep[p[j]]
    ensures forall i :: 0 <= i < |keep| && keep[i] ==> i in p
    ensures forall j, k :: 0 <= j < k < |p| ==> p[j] < p[k]
    decreases |keep|
  {
    if |keep| == 0 then []
    else
      var p := Positions(keep[..|keep| - 1]);
      if keep[|keep| - 1] then p + [|keep| - 1] else p
  }

  /** Entry j of a selection is the entry of `xs` at the j-th set position. */
  lemma {:induction false} SelectAtPositions<T>(xs: seq<T>, keep: seq<bool>)
    requires |xs| == |keep|
    ensures |Select(xs, keep)| == |Positions(keep)|
    ensures forall j :: 0 <= j < |Positions(keep)| ==>
              Select(xs, keep)[j] == xs[Positions(keep)[j]]
    decreases |xs|
  {
    if |xs| > 0 {
      SelectAtPositions(xs[..|xs| - 1], keep[..|keep| - 1]);
    }
  }

  /** A mask with every bit set keeps everything. */
  lemma {:induction false} SelectAll<T>(xs: seq<T>, keep: seq<bool>)
    requires |xs| == |keep|
    requires forall i :: 0 <= i < |keep| ==> keep[i]
    ensures Select(xs, keep) == xs
    decreases |xs|
  {
    if |xs| > 0 {
      SelectAll(xs[..|xs| - 1], keep[..|keep| - 1]);
      assert xs == xs[..|xs| - 1] + [xs[|xs| - 1]];
    }
  }
}

=== FILE: occupancy.dfy ===
/** Occupancy normalisation and the threshold filter (DAM_animation.py:98-102). */
module Occupancy {
  import opened Geometry
  import opened Extrema
  import opened Masks

  /** Each occupancy divided by the largest one. The script does not guard
      the division; a zero maximum is excluded here and reported by the
      pipeline instead. A negative maximum is a defined division. */
  function Normalize(occ: seq<real>): (r: seq<real>)
    requires |occ| > 0 && Max(occ) != 0.0
    ensures |r| == |occ|
    ensures forall i :: 0 <= i < |occ| ==> r[i] * Max(occ) == occ[i]
    ensures exists k :: 0 <= k < |occ| && occ[k] == Max(occ) && r[k] == 1.0
    ensures Max(occ) > 0.0 ==> forall i :: 0 <= i < |occ| ==> r[i] <= 1.0
    ensures Max(occ) > 0.0 ==> forall i :: 0 <= i < |occ| && 0.0 <= occ[i] ==> 0.0 <= r[i]
    ensures Max(occ) > 0.0 ==> forall i, j :: 0 <= i < |occ| && 0 <= j < |occ| ==>
              (occ[i] <= occ[j] <==> r[i] <= r[j])
  {
    var m := Max(occ);
    var r := seq(|occ|, i requires 0 <= i < |occ| => occ[i] / m);
    QuotientFacts(occ, m, r);
    r
  }

  /** Division by a common non-zero value, element by element. */
  lemma QuotientFacts(occ: seq<real>, m: real, r: seq<real>)
    requires |occ| > 0 && m == Max(occ) && m != 0.0
    requires |r| == |occ| && forall i :: 0 <= i < |occ| ==> r[i] == occ[i] / m
    ensures forall i :: 0 <= i < |occ| ==> r[i] * m == occ[i]
    ensures exists k :: 0 <= k < |occ| && occ[k] == m && r[k] == 1.0
    ensures m > 0.0 ==> forall i :: 0 <= i < |occ| ==> r[i] <= 1.0
    ensures m > 0.0 ==> forall i :: 0 <= i < |occ| && 0.0 <= occ[i] ==> 0.0 <= r[i]
    ensures m > 0.0 ==> forall i, j :: 0 <= i < |occ| && 0 <= j < |occ| ==>
              (occ[i] <= occ[j] <==> r[i] <= r[j])
  {
    forall i | 0 <= i < |occ| ensures r[i] * m == occ[i] {
      DivideBack(occ[i], m);
    }
    var k := ArgMax(occ);
    DivideBack(m, m);
    assert occ[k] == m && r[k] == 1.0;
    if m > 0.0 {
      forall i | 0 <= i < |occ| ensures r[i] <= 1.0 {
        DivideBelow(occ[i], m, m);
      }
      forall i | 0 <= i < |occ| && 0.0 <= occ[i] ensures 0.0 <= r[i] {
        DivideBelow(0.0, occ[i], m);
      }
      forall i, j | 0 <= i < |occ| && 0 <= j < |occ|
        ensures occ[i] <= occ[j] <==> r[i] <= r[j]
      {
        DivideBelow(occ[i], occ[j], m);
      }
    }
  }

  /** Normalising is dividing by the maximum. */
  lemma NormalizeQuotient(occ: seq<real>)
    requires |occ| > 0 && Max(occ) != 0.0
    ensures forall i :: 0 <= i < |occ| ==> Normalize(occ)[i] == occ[i] / Max(occ)
  {
    var m := Max(occ);
    assert Normalize(occ) == seq(|occ|, i requires 0 <= i < |occ| => occ[i] / m);
  }

  lemma DivideBack(a: real, m: real)
    requires m != 0.0
    ensures (a / m) * m == a
    ensures a == m ==> a / m == 1.0
  {
  }

  /** Dividing by a positive value keeps order, in both directions. */
  lemma DivideBelow(a: real, b: real, m: real)
    requires m > 0.0
    ensures a <= b <==> a / m <= b / m
  {
    assert a == (a / m) * m && b == (b / m) * m;
    if a / m <= b / m {
      assert (a / m) * m <= (b / m) * m;
    }
  }

  /** The keep-mask `norm >= threshold`. */
  function Mask(norm: seq<real>, threshold: real): (keep: seq<bool>)
    ensures |keep| == |norm|
    ensures forall i :: 0 <= i < |norm| ==> (keep[i] <==> norm[i] >= threshold)
  {
    seq(|norm|, i requires 0 <= i < |norm| => norm[i] >= threshold)
  }

  /** The atoms whose normalised occupancy reaches the threshold: one mask
      applied to the coordinates and to the normalised occupancies alike. */
  function Filter(coords: seq<Vec3>, norm: seq<real>, threshold: real): (r: Particles)
    requires |coords| == |norm|
    ensures r.Aligned()
    ensures |r.coords| == |Positions(Mask(norm, threshold))|
    ensures forall j :: 0 <= j < |r.coords| ==>
              var i := Positions(Mask(norm, threshold))[j];
              r.coords[j] == coords[i] && r.occupancy[j] == norm[i]
    ensures forall i :: 0 <= i < |norm| ==>
              (i in Positions(Mask(norm, threshold)) <==> norm[i] >= threshold)
    ensures forall j :: 0 <= j < |r.occupancy| ==> r.occupancy[j] >= threshold
  {
    var keep := Mask(norm, threshold);
    SelectAtPositions(coords, keep);
    SelectAtPositions(norm, keep);
    Particles(Select(coords, keep), Select(norm, keep))
  }

  /** A keep-mask has no set position exactly when no value reaches the
      threshold. */
  lemma MaskEmptyIff(norm: seq<real>, threshold: real)
    ensures |Positions(Mask(norm, threshold))| == 0 <==>
              forall i :: 0 <= i < |norm| ==> norm[i] < threshold
  {
    var p := Positions(Mask(norm, threshold));
    if |p| > 0 {
      assert norm[p[0]] >= threshold;
    } else {
      assert forall i :: 0 <= i < |norm| ==> i !in p;
    }
  }

  /** The filter keeps nothing exactly when every occupancy is below the
      threshold fraction of the largest one. */
  lemma FilterEmptyIff(coords: seq<Vec3>, occ: seq<real>, threshold: real)
    requires |coords| == |occ| > 0 && Max(occ) != 0.0
    ensures |Filter(coords, Normalize(occ), threshold).coords| == 0 <==>
              forall i :: 0 <= i < |occ| ==> occ[i] / Max(occ) < threshold
  {
    var norm := Normalize(occ);
    MaskEmptyIff(norm, threshold);
    NormalizeQuotient(occ);
  }

  /** Filtering an already filtered set at the same threshold changes nothing. */
  lemma FilterIdempotent(coords: seq<Vec3>, norm: seq<real>, threshold: real)
    requires |coords| == |norm|
    ensures var f := Filter(coords, norm, threshold);
            Filter(f.coords, f.occupancy, threshold) == f
  {
    var f := Filter(coords, norm, threshold);
    var keep := Mask(f.occupancy, threshold);
    SelectAll(f.coords, keep);
    SelectAll(f.occupancy, keep);
  }

  /** Occupancies 1.0, 0.8, 0.4 and 0.1 at threshold 0.5 keep exactly the
      first two atoms. */
  lemma FourAtomExample(coords: seq<Vec3>)
    requires |coords| == 4
    ensures var occ := [1.0, 0.8, 0.4, 0.1];
            Max(occ) == 1.0 &&
            Filter(coords, Normalize(occ), 0.5) == Particles(coords[..2], [1.0, 0.8])
  {
    var occ := [1.0, 0.8, 0.4, 0.1];
    assert ArgMax(occ[..1]) == 0;
    assert occ[..2][..1] == occ[..1];
    assert ArgMax(occ[..2]) == 0;
    assert occ[..3][..2] == occ[..2];
    assert ArgMax(occ[..3]) == 0;
    assert occ[..3] == occ[..|occ| - 1];
    assert ArgMax(occ) == 0;
    var norm := Normalize(occ);
    assert norm == occ;
    var keep := Mask(norm, 0.5);
    assert keep == [true, true, false, false];
    assert Positions(keep[..1]) == [0];
    assert keep[..2][..1] == keep[..1];
    assert Positions(keep[..2]) == [0, 1];
    assert keep[..3][..2] == keep[..2];
    assert Positions(keep[..3]) == [0, 1];
    assert keep[..3] == keep[..|keep| - 1];
    assert Positions(keep) == [0, 1];
  }
}

=== FILE: pipeline.dfy ===
/** One pass of the script over its input files: parse, normalise and
    filter, orient, measure, label and animate each file in turn
    (DAM_animation.py:62-160). */
module Pipeline {
  import opened Results
  import opened Geometry
  import opened Extrema
  import opened Records
  import opened Occupancy
  import opened Bounds
  import opened Labels
  import opened Animation
  import opened Masks

  /** The settings block at the top of the script, as far as it shapes the
      geometry and the frame sequence. */
  datatype Config = Config(
    duration: real,          // seconds of video
    fps: real,               // frames per second
    rotations: real,         // full turns of the camera
    threshold: real,         // smallest normalised occupancy kept
    showBoundingBox: bool)   // draw the box and its dimension labels

  const Defaults := Config(10.0, 30.0, 1.0, 0.5, true)

  /** The principal-axis transform, left uninterpreted: the transformed
      coordinates, or `None` when the decomposition rejects its input. */
  type Orienter = seq<Vec3> -> Option<seq<Vec3>>

  datatype Label = Label(anchor: Vec3, text: string)

  /** Everything the renderer and the movie writer receive for one file. */
  datatype Video = Video(
    points: seq<Vec3>,       // oriented coordinates of the kept atoms
    occupancy: seq<real>,    // their normalised occupancies, the colour channel
    box: Box,
    labels: seq<Label>,
    actions: seq<Action>)    // camera actions, from the preset view at azimuth 0

  /** The three dimension labels of a box: label `a` sits at anchor `a`, on
      the surface of the box and level with the centre along axis `a`, and
      reads as the side length along axis `a` rounded, without leading zeros. */
  function DimensionLabels(b: Box): (r: seq<Label>)
    requires forall a: Axis :: Coord(b.lo, a) <= Coord(b.hi, a)
    ensures |r| == 3
    ensures forall a: Axis :: r[a].anchor == LabelAnchors(b)[a]
    ensures forall a: Axis :: Coord(r[a].anchor, a) == Coord(b.Centre(), a) && b.OnSurface(r[a].anchor)
    ensures forall a: Axis :: Shows(r[a].text, RoundHalfEven(Coord(b.Side(), a)))
  {
    var anchors := LabelAnchors(b);
    var side := b.Side();
    AnchorsOnBox(b);
    assert Coord(b.lo, 0) <= Coord(b.hi, 0);
    assert Coord(b.lo, 1) <= Coord(b.hi, 1);
    assert Coord(b.lo, 2) <= Coord(b.hi, 2);
    [ Label(anchors[0], LabelText(side.x)),
      Label(anchors[1], LabelText(side.y)),
      Label(anchors[2], LabelText(side.z)) ]
  }

  /** The labels drawn with the bounding box, or none when it is hidden. */
  function LabelsIfShown(show: bool, b: Box): (r: seq<Label>)
    requires forall a: Axis :: Coord(b.lo, a) <= Coord(b.hi, a)
    ensures |r| == if show then 3 else 0
    ensures show ==> r == DimensionLabels(b)
  {
    if show then DimensionLabels(b) else []
  }

  /** The camera actions of the video, starting from the preset view. */
  function Frames(cfg: Config): (r: Result<seq<Action>>)
    ensures r.Err? <==> MakePlan(cfg.duration, cfg.fps, cfg.rotations).Err?
    ensures r.Err? ==> r.error == NoFrames
    ensures r.Ok? ==> r.value == Schedule(MakePlan(cfg.duration, cfg.fps, cfg.rotations).value, 0.0)
    ensures r.Ok? ==> |r.value| == 2 * MakePlan(cfg.duration, cfg.fps, cfg.rotations).value.Count()
    ensures r.Ok? && MakePlan(cfg.duration, cfg.fps, cfg.rotations).value.frames > 0 ==>
              TotalRotation(r.value) == 360.0 * cfg.rotations
  {
    if MakePlan(cfg.duration, cfg.fps, cfg.rotations).Err? then Err(NoFrames)
    else
      var plan := MakePlan(cfg.duration, cfg.fps, cfg.rotations).value;
      if plan.frames > 0 then
        FullTurn(cfg.duration, cfg.fps, cfg.rotations, 0.0);
        Ok(Schedule(plan, 0.0))
      else Ok(Schedule(plan, 0.0))
  }

  /** With the settings block as shipped, 10 seconds at 30 frames per
      second and one turn, the video has 300 frames 1.2 degrees apart: 600
      camera actions that end one full turn from the preset view. */
  lemma DefaultFrames()
    ensures MakePlan(Defaults.duration, Defaults.fps, Defaults.rotations) == Ok(Plan(300, 1.2))
    ensures Frames(Defaults).Ok? && |Frames(Defaults).value| == 600
    ensures TotalRotation(Frames(Defaults).value) == 360.0
  {
    assert Truncate(300.0) == 300;
  }

  /** The stages after orientation: extents, labels and the frame plan for
      the oriented points of one file. */
  function Stage(cfg: Config, pts: seq<Vec3>, occupancy: seq<real>): (r: Result<Video>)
    requires |pts| == |occupancy| > 0
    ensures r.Ok? ==> r.value.points == pts && r.value.occupancy == occupancy
    ensures r.Ok? ==> r.value.box == BoundingBox(pts)
    ensures r.Ok? ==> r.value.labels == if cfg.showBoundingBox then DimensionLabels(r.value.box) else []
    ensures r.Ok? ==> Frames(cfg) == Ok(r.value.actions)
    ensures r.Err? <==> Frames(cfg).Err?
    ensures r.Err? ==> r.error == NoFrames
  {
    var box := BoundingBox(pts);
    assert box.Contains(pts[0]);
    var labels := LabelsIfShown(cfg.showBoundingBox, box);
    match Frames(cfg)
    case Err(e) => Err(e)
    case Ok(actions) => Ok(Video(pts, occupancy, box, labels, actions))
  }

  /** Orientation of the kept atoms and the stages after it: the transform
      must give one point per kept atom. */
  function Orient(cfg: Config, kept: Particles, orient: Orienter): (r: Result<Video>)
    requires kept.Aligned() && |kept.coords| > 0
    ensures r == Err(OrientationFailed) <==>
              orient(kept.coords).None? || |orient(kept.coords).value| != |kept.coords|
    ensures r == Err(NoFrames) <==>
              orient(kept.coords).Some? && |orient(kept.coords).value| == |kept.coords| && Frames(cfg).Err?
    ensures r.Ok? ==> orient(kept.coords) == Some(r.value.points) && r.value.occupancy == kept.occupancy
    ensures r.Ok? ==> r == Stage(cfg, r.value.points, r.value.occupancy)
  {
    match orient(kept.coords)
    case None => Err(OrientationFailed)
    case Some(pts) =>
      if |pts| != |kept.coords| then Err(OrientationFailed)
      else Stage(cfg, pts, kept.occupancy)
  }

  /** The stages between parsing and measuring: normalise, filter and
      orient the atoms of one file. */
  function Refine(cfg: Config, m: Particles, orient: Orienter): (r: Result<Video>)
    requires m.Aligned() && |m.coords| > 0
    ensures r.Ok? ==> |r.value.points| == |r.value.occupancy| > 0
    ensures r.Ok? ==> forall j :: 0 <= j < |r.value.occupancy| ==> r.value.occupancy[j] >= cfg.threshold
    ensures r == Err(DegenerateOccupancy) <==> Max(m.occupancy) == 0.0
    ensures r == Err(EmptyFilterResult) <==>
              Max(m.occupancy) != 0.0 &&
              forall i :: 0 <= i < |m.occupancy| ==> m.occupancy[i] / Max(m.occupancy) < cfg.threshold
    ensures r == Err(OrientationFailed) <==>
              && Max(m.occupancy) != 0.0
              && var kept := Filter(m.coords, Normalize(m.occupancy), cfg.threshold).coords;
                 && |kept| > 0
                 && (orient(kept).None? || |orient(kept).value| != |kept|)
    ensures r == Err(NoFrames) <==>
              && Max(m.occupancy) != 0.0
              && var kept := Filter(m.coords, Normalize(m.occupancy), cfg.threshold).coords;
                 && |kept| > 0
                 && orient(kept).Some? && |orient(kept).value| == |kept|
                 && Frames(cfg).Err?
    ensures r.Ok? ==> r == Stage(cfg, r.value.points, r.value.occupancy)
    ensures r.Ok? ==>
              && Max(m.occupancy) != 0.0
              && var kept := Positions(Mask(Normalize(m.occupancy), cfg.threshold));
                 && |r.value.occupancy| == |kept|
                 && (forall j :: 0 <= j < |kept| ==>
                       r.value.occupancy[j] == m.occupancy[kept[j]] / Max(m.occupancy))
                 && orient(Filter(m.coords, Normalize(m.occupancy), cfg.threshold).coords) == Some(r.value.points)
  {
    if Max(m.occupancy) == 0.0 then Err(DegenerateOccupancy)
    else
      var norm := Normalize(m.occupancy);
      var kept := Filter(m.coords, norm, cfg.threshold);
      NormalizeQuotient(m.occupancy);
      FilterEmptyIff(m.coords, m.occupancy, cfg.threshold);
      if |kept.coords| == 0 then Err(EmptyFilterResult)
      else Orient(cfg, kept, orient)
  }

  /** The processing of one file, stopping at the first failure. */
  function Process(cfg: Config, name: string, lines: seq<string>,
                   parse: RealParser, orient: Orienter): (r: Result<Video>)
    ensures Extract(name, lines, parse).Err? ==> r == Err(Extract(name, lines, parse).error)
    ensures Extract(name, lines, parse).Ok? ==> r == Refine(cfg, Extract(name, lines, parse).value, orient)
    ensures r.Ok? ==> |r.value.points| == |r.value.occupancy| > 0
    ensures r.Ok? ==> forall j :: 0 <= j < |r.value.occupancy| ==> r.value.occupancy[j] >= cfg.threshold
  {
    match Extract(name, lines, parse)
    case Err(e) => Err(e)
    case Ok(m) => Refine(cfg, m, orient)
  }

  /** From the file to the video: the video shows, in file order, the
      ATOM lines whose occupancy reaches the threshold fraction of the
      largest occupancy among all ATOM lines, each coloured by that fraction,
      at the transformed positions of the records read from those lines. */
  lemma ProcessReadsFile(cfg: Config, name: string, lines: seq<string>,
                         parse: RealParser, orient: Orienter)
    requires Process(cfg, name, lines, parse, orient).Ok?
    ensures FormatOf(name).Some? && Extract(name, lines, parse).Ok?
    ensures var fmt := FormatOf(name).value;
            var m := Extract(name, lines, parse).value;
            var atoms := Positions(AtomMask(lines));
            && |m.occupancy| == |atoms|
            && forall i :: 0 <= i < |atoms| ==>
                 LineRecord(fmt, parse, lines[atoms[i]]) == Atom(m.coords[i], m.occupancy[i])
    ensures var m := Extract(name, lines, parse).value;
            var v := Process(cfg, name, lines, parse, orient).value;
            && Max(m.occupancy) != 0.0
            && var kept := Positions(Mask(Normalize(m.occupancy), cfg.threshold));
               && |v.occupancy| == |kept|
               && (forall j :: 0 <= j < |kept| ==>
                     v.occupancy[j] == m.occupancy[kept[j]] / Max(m.occupancy))
               && orient(Filter(m.coords, Normalize(m.occupancy), cfg.threshold).coords) == Some(v.points)
  {
    var m := Extract(name, lines, parse).value;
    assert Process(cfg, name, lines, parse, orient) == Refine(cfg, m, orient);
    ExtractedRecords(name, lines, parse);
  }

  /** The atoms of a parsed file are the records of its ATOM lines, in
      file order. */
  lemma ExtractedRecords(name: string, lines: seq<string>, parse: RealParser)
    requires Extract(name, lines, parse).Ok?
    ensures FormatOf(name).Some?
    ensures var fmt := FormatOf(name).value;
            var m := Extract(name, lines, parse).value;
            var atoms := Positions(AtomMask(lines));
            && |m.occupancy| == |atoms|
            && forall i :: 0 <= i < |atoms| ==>
                 LineRecord(fmt, parse, lines[atoms[i]]) == Atom(m.coords[i], m.occupancy[i])
  {
    var fmt := FormatOf(name).value;
    var record := Reader(fmt, parse);
    assert ReadsAtomLines(record);
    ExtractLinesRecords(record, lines);
  }

  datatype InputFile = InputFile(name: string, lines: seq<string>)

  /** What a run produced before it stopped and, if it stopped early, the
      file that failed and why. */
  datatype BatchOutcome<V> = BatchOutcome(done: seq<V>, failure: Option<(string, Error)>)

  /** The files are processed in order and the first failure ends the run:
      no later file is processed. */
  function Batch<V>(files: seq<InputFile>, process: InputFile -> Result<V>): (r: BatchOutcome<V>)
    ensures |r.done| <= |files|
    ensures forall j :: 0 <= j < |r.done| ==> process(files[j]) == Ok(r.done[j])
    ensures r.failure.None? <==> |r.done| == |files|
    ensures r.failure.Some? ==>
              var k := |r.done|;
              && k < |files|
              && r.failure.value.0 == files[k].name
              && process(files[k]) == Err(r.failure.value.1)
    decreases |files|
  {
    if |files| == 0 then BatchOutcome([], None)
    else match process(files[0])
      case Err(e) => BatchOutcome([], Some((files[0].name, e)))
      case Ok(v) =>
        var rest := Batch(files[1..], process);
        var r := BatchOutcome([v] + rest.done, rest.failure);
        assert forall j :: 1 <= j <= |rest.done| ==> files[j] == files[1..][j - 1] && r.done[j] == rest.done[j - 1];
        r
  }

  /** The whole run of the script over its input files. */
  function Run(cfg: Config, files: seq<InputFile>, parse: RealParser, orient: Orienter): (r: BatchOutcome<Video>)
    ensures |r.done| <= |files|
    ensures forall j :: 0 <= j < |r.done| ==>
              Process(cfg, files[j].name, files[j].lines, parse, orient) == Ok(r.done[j])
    ensures r.failure.Some? ==>
              var k := |r.done|;
              && k < |files|
              && Process(cfg, files[k].name, files[k].lines, parse, orient) == Err(r.failure.value.1)
    ensures r.failure.None? <==> |r.done| == |files|
  {
    Batch(files, (f: InputFile) => Process(cfg, f.name, f.lines, parse, orient))
  }
}

=== FILE: records.dfy ===
/** Atom-record extraction: the per-line loop that turns a structure file
    into a coordinate list and an occupancy list (DAM_animation.py:68-96). */
module Records {
  import opened Results
  import opened Geometry
  import opened Text
  import opened Masks

  /** The two supported structure formats, told apart by file extension. */
  datatype Format = Cif | Pdb

  /** The format chosen by the case-insensitive extension test, if any. */
  function FormatOf(name: string): (f: Option<Format>)
    ensures f == Some(Cif) <==> EndsWith(LowerAscii(name), ".cif")
    ensures f == Some(Pdb) <==> EndsWith(LowerAscii(name), ".pdb")
    ensures f == None <==> !EndsWith(LowerAscii(name), ".cif") && !EndsWith(LowerAscii(name), ".pdb")
  {
    var lower := LowerAscii(name);
    if EndsWith(lower, ".cif") then Some(Cif)
    else if EndsWith(lower, ".pdb") then Some(Pdb)
    else None
  }

  /** The number conversion `float(...)`, left uninterpreted: `None` stands
      for the ValueError it raises on text that is not a number. */
  type RealParser = string -> Option<real>

  /** What one line of the file contributes. */
  datatype LineOutcome =
    | NotAtom
    | Atom(pos: Vec3, occupancy: real)
    | Malformed

  /** Only lines starting with the record name ATOM describe an atom. */
  predicate IsAtomLine(line: string)
  {
    StartsWith(line, "ATOM")
  }

  /** The texts holding x, y, z and occupancy, or `None` when a CIF line has
      too few tokens (the IndexError of `parts[12]`). */
  function RawFields(fmt: Format, line: string): Option<seq<string>>
  {
    match fmt
    case Cif =>
      var parts := Split(line);
      if |parts| < 13 then None else Some(parts[9..13])
    case Pdb =>
      Some([Slice(line, 30, 38), Slice(line, 38, 46), Slice(line, 46, 54), Slice(line, 54, 60)])
  }

  /** The record one line yields. */
  function LineRecord(fmt: Format, parse: RealParser, line: string): (o: LineOutcome)
    ensures o.NotAtom? <==> !IsAtomLine(line)
  {
    if !IsAtomLine(line) then NotAtom
    else match RawFields(fmt, line)
      case None => Malformed
      case Some(f) =>
        match (parse(f[0]), parse(f[1]), parse(f[2]), parse(f[3]))
        case (Some(x), Some(y), Some(z), Some(o)) => Atom(Vec3(x, y, z), o)
        case _ => Malformed
  }

  /** The per-line reader of one format. */
  function Reader(fmt: Format, parse: RealParser): (record: string -> LineOutcome)
    ensures forall line :: record(line) == LineRecord(fmt, parse, line)
  {
    (line: string) => LineRecord(fmt, parse, line)
  }

  /** A per-line reader that yields a record or an error exactly for the
      ATOM lines. */
  ghost predicate ReadsAtomLines(record: string -> LineOutcome)
  {
    forall line :: record(line).NotAtom? <==> !IsAtomLine(line)
  }

  /** Which lines are ATOM lines. */
  function AtomMask(lines: seq<string>): (m: seq<bool>)
    ensures |m| == |lines|
    ensures forall i :: 0 <= i < |lines| ==> (m[i] <==> IsAtomLine(lines[i]))
  {
    seq(|lines|, i requires 0 <= i < |lines| => IsAtomLine(lines[i]))
  }

  /** The loop over the lines of one file: each ATOM line appends its
      coordinates and its occupancy to the two lists together, and the first
      ATOM line whose fields cannot be read stops the loop. */
  function ExtractLines(record: string -> LineOutcome, lines: seq<string>): (r: Result<Particles>)
    ensures r.Ok? ==> r.value.Aligned()
    decreases |lines|
  {
    if |lines| == 0 then Ok(Particles([], []))
    else
      var n := |lines| - 1;
      match ExtractLines(record, lines[..n])
      case Err(e) => Err(e)
      case Ok(m) =>
        match record(lines[n])
        case NotAtom => Ok(m)
        case Atom(p, o) => Ok(Particles(m.coords + [p], m.occupancy + [o]))
        case Malformed => Err(MalformedRecord(n))
  }

  /** The loop succeeds exactly when no line is malformed, and then it has
      read one record per ATOM line, in file order. */
  lemma {:induction false} ExtractLinesRecords(record: string -> LineOutcome, lines: seq<string>)
    requires ReadsAtomLines(record)
    ensures var r := ExtractLines(record, lines);
            r.Ok? <==> forall i :: 0 <= i < |lines| ==> !record(lines[i]).Malformed?
    ensures var r := ExtractLines(record, lines);
            r.Ok? ==> |r.value.coords| == |Positions(AtomMask(lines))|
    ensures var r := ExtractLines(record, lines);
            r.Ok? ==> forall j :: 0 <= j < |r.value.coords| ==>
              record(lines[Positions(AtomMask(lines))[j]]) == Atom(r.value.coords[j], r.value.occupancy[j])
    decreases |lines|
  {
    if |lines| > 0 {
      var n := |lines| - 1;
      var prefix := lines[..n];
      ExtractLinesRecords(record, prefix);
      assert AtomMask(prefix) == AtomMask(lines)[..n];
      assert forall i :: 0 <= i < n ==> prefix[i] == lines[i];
      if record(lines[n]).NotAtom? {
        assert Positions(AtomMask(lines)) == Positions(AtomMask(prefix));
      } else if record(lines[n]).Atom? {
        assert Positions(AtomMask(lines)) == Positions(AtomMask(prefix)) + [n];
      }
    }
  }

  /** A failed loop names the first malformed line. */
  lemma {:induction false} ExtractLinesError(record: string -> LineOutcome, lines: seq<string>)
    ensures var r := ExtractLines(record, lines);
            r.Err? ==> && r.error.MalformedRecord?
                       && r.error.line < |lines|
                       && record(lines[r.error.line]).Malformed?
                       && forall i :: 0 <= i < r.error.line ==> !record(lines[i]).Malformed?
    decreases |lines|
  {
    if |lines| > 0 {
      var n := |lines| - 1;
      var prefix := lines[..n];
      ExtractLinesError(record, prefix);
      assert forall i :: 0 <= i < n ==> prefix[i] == lines[i];
      if ExtractLines(record, prefix).Ok? {
        ExtractLinesNoError(record, prefix);
      }
    }
  }

  /** A successful loop met no malformed line. */
  lemma {:induction false} ExtractLinesNoError(record: string -> LineOutcome, lines: seq<string>)
    requires ExtractLines(record, lines).Ok?
    ensures forall i :: 0 <= i < |lines| ==> !record(lines[i]).Malformed?
    decreases |lines|
  {
    if |lines| > 0 {
      var n := |lines| - 1;
      var prefix := lines[..n];
      ExtractLinesNoError(record, prefix);
      assert forall i :: 0 <= i < n ==> prefix[i] == lines[i];
    }
  }

  /** Reads the named file's lines into a particle model; an empty result is
      an error naming the file. A name with neither extension reads nothing. */
  function Extract(name: string, lines: seq<string>, parse: RealParser): (r: Result<Particles>)
    ensures r.Ok? ==> r.value.Aligned() && |r.value.coords| > 0
    ensures r == Err(NoAtomRecords(name)) <==>
              FormatOf(name).None? || forall i :: 0 <= i < |lines| ==> !IsAtomLine(lines[i])
    ensures r.Ok? ==> FormatOf(name).Some? && r == ExtractLines(Reader(FormatOf(name).value, parse), lines)
    ensures r.Err? && r.error.MalformedRecord? <==>
              FormatOf(name).Some? && ExtractLines(Reader(FormatOf(name).value, parse), lines).Err?
  {
    match FormatOf(name)
    case None => Err(NoAtomRecords(name))
    case Some(fmt) =>
      var record := Reader(fmt, parse);
      ExtractLinesRecords(record, lines);
      ExtractLinesError(record, lines);
      match ExtractLines(record, lines)
      case Err(e) => Err(e)
      case Ok(m) =>
        var p := Positions(AtomMask(lines));
        if |m.coords| == 0 then
          assert |p| == 0;
          Err(NoAtomRecords(name))
        else
          assert IsAtomLine(lines[p[0]]);
          Ok(m)
  }

  /** A CIF ATOM line is read by token position: however the tokens are
      spaced (column padding, tabs, the line's terminator) and whatever the
      other tokens hold, x, y, z and occupancy are tokens 9, 10, 11 and 12. */
  lemma CifTokenPositions(gaps: seq<string>, ws: seq<string>, parse: RealParser,
                          x: real, y: real, z: real, o: real)
    requires WellSpaced(gaps, ws) && |gaps[0]| == 0 && |ws| >= 13
    requires StartsWith(ws[0], "ATOM")
    requires parse(ws[9]) == Some(x) && parse(ws[10]) == Some(y)
    requires parse(ws[11]) == Some(z) && parse(ws[12]) == Some(o)
    ensures LineRecord(Cif, parse, Layout(gaps, ws)) == Atom(Vec3(x, y, z), o)
  {
    var line := Layout(gaps, ws);
    LayoutKeepsPrefix(gaps, ws);
    SplitLayout(gaps, ws);
    assert RawFields(Cif, line) == Some(ws[9..13]);
  }

  /** A CIF ATOM line with fewer than 13 tokens cannot be read, however
      its tokens are spaced. */
  lemma CifTooFewTokens(gaps: seq<string>, ws: seq<string>, parse: RealParser)
    requires WellSpaced(gaps, ws) && |gaps[0]| == 0 && 0 < |ws| < 13
    requires StartsWith(ws[0], "ATOM")
    ensures LineRecord(Cif, parse, Layout(gaps, ws)) == Malformed
  {
    var line := Layout(gaps, ws);
    LayoutKeepsPrefix(gaps, ws);
    SplitLayout(gaps, ws);
    assert RawFields(Cif, line) == None;
  }

  /** A line without leading whitespace starts as its first token does. */
  lemma LayoutKeepsPrefix(gaps: seq<string>, ws: seq<string>)
    requires |gaps| == |ws| + 1 && |ws| > 0 && |gaps[0]| == 0
    requires StartsWith(ws[0], "ATOM")
    ensures IsAtomLine(Layout(gaps, ws))
  {
    var line := Layout(gaps, ws);
    LayoutPrefix(gaps, ws);
    assert line[..4] == line[..|ws[0]|][..4];
  }

  /** A PDB ATOM line is read by character column: whatever the rest of the
      line holds, x, y, z and occupancy are the texts in columns [30,38),
      [38,46), [46,54) and [54,60), as in the ATOM record of the wwPDB PDB
      File Format version 3.3. */
  lemma PdbColumns(head: string, fx: string, fy: string, fz: string, fo: string, tail: string,
                   parse: RealParser, x: real, y: real, z: real, o: real)
    requires |head| == 30 && StartsWith(head, "ATOM")
    requires |fx| == 8 && |fy| == 8 && |fz| == 8 && |fo| == 6
    requires parse(fx) == Some(x) && parse(fy) == Some(y)
    requires parse(fz) == Some(z) && parse(fo) == Some(o)
    ensures LineRecord(Pdb, parse, head + fx + fy + fz + fo + tail) == Atom(Vec3(x, y, z), o)
  {
    var line := head + fx + fy + fz + fo + tail;
    assert line[..4] == head[..4];
    assert line[30..38] == fx;
    assert line[38..46] == fy;
    assert line[46..54] == fz;
    assert line[54..60] == fo;
  }
}

=== FILE: results.dfy ===
/** Failure-carrying values for the pipeline: every exception the script can
    raise while processing one file becomes an `Error` value. */
module Results {

  datatype Option<+T> = None | Some(value: T)

  /** Why processing a file stopped. */
  datatype Error =
    /** An ATOM line whose fields could not be read (the IndexError or
        ValueError of the record parser); `line` is its 0-based index. */
    | MalformedRecord(line: nat)
    /** No ATOM record was extracted from the named file. */
    | NoAtomRecords(file: string)
    /** The largest occupancy is zero, so normalisation divides by zero. */
    | DegenerateOccupancy
    /** The threshold filter kept no atom. */
    | EmptyFilterResult
    /** The principal-axis transform rejected the filtered coordinates. */
    | OrientationFailed
    /** The frame count is zero, so the angle step divides by zero. */
    | NoFrames

  datatype Result<+T> = Ok(value: T) | Err(error: Error)
}

=== FILE: text.dfy ===
/** The string operations the record parser relies on, with Python's
    semantics: `str.split()`, `str.startswith`, clamped slicing `s[a:b]`, and
    the case folding of `str.lower()` as far as a file extension needs it. */
module Text {

  /** The characters `str.isspace()` accepts, which are the separators of
      `str.split()` with no argument. */
  predicate IsSpace(c: char)
  {
    || c == ' '
    || ('\t' <= c <= '\r')
    || ('\U{1C}' <= c <= '\U{1F}')
    || c == '\U{85}' || c == '\U{A0}' || c == '\U{1680}'
    || ('\U{2000}' <= c <= '\U{200A}')
    || c == '\U{2028}' || c == '\U{2029}' || c == '\U{202F}'
    || c == '\U{205F}' || c == '\U{3000}'
  }

  /** A token of `str.split()`: non-empty and free of whitespace. */
  predicate IsWord(w: string)
  {
    |w| > 0 && forall i :: 0 <= i < |w| ==> !IsSpace(w[i])
  }

  /** Splits `s`, where `cur` is the part of the current token read so far. */
  function SplitFrom(s: string, cur: string): (r: seq<string>)
    requires forall i :: 0 <= i < |cur| ==> !IsSpace(cur[i])
    ensures forall j :: 0 <= j < |r| ==> IsWord(r[j])
    decreases |s|
  {
    if |s| == 0 then (if |cur| == 0 then [] else [cur])
    else if IsSpace(s[0]) then (if |cur| == 0 then [] else [cur]) + SplitFrom(s[1..], [])
    else SplitFrom(s[1..], cur + [s[0]])
  }

  /** Whitespace only, possibly nothing. */
  predicate IsBlank(s: string)
  {
    forall i :: 0 <= i < |s| ==> IsSpace(s[i])
  }

  /** The line `gaps[0] + ws[0] + gaps[1] + ... + ws[n-1] + gaps[n]`. */
  function Layout(gaps: seq<string>, ws: seq<string>): string
    requires |gaps| == |ws| + 1
    decreases |ws|
  {
    if |ws| == 0 then gaps[0] else gaps[0] + ws[0] + Layout(gaps[1..], ws[1..])
  }

  /** Words laid out with whitespace between them: every gap is blank and
      every gap between two words is non-empty; the gaps before the first
      word and after the last (indentation, column padding, the line's
      terminator) may be empty. */
  predicate WellSpaced(gaps: seq<string>, ws: seq<string>)
  {
    && |gaps| == |ws| + 1
    && (forall i :: 0 <= i < |gaps| ==> IsBlank(gaps[i]))
    && (forall i :: 0 < i < |ws| ==> |gaps[i]| > 0)
    && (forall j :: 0 <= j < |ws| ==> IsWord(ws[j]))
  }

  /** `s.split()`: the maximal runs of non-whitespace characters, in order;
      that is, the words of a layout of `s`. */
  function Split(s: string): (r: seq<string>)
    ensures exists gaps :: WellSpaced(gaps, r) && Layout(gaps, r) == s
  {
    SplitFromLayout(s, []);
    assert [] + s == s;
    SplitFrom(s, [])
  }

  /** Moving text into the leading gap moves it to the front of the line. */
  lemma LayoutPrepend(p: string, gaps: seq<string>, ws: seq<string>)
    requires |gaps| == |ws| + 1
    ensures Layout([p + gaps[0]] + gaps[1..], ws) == p + Layout(gaps, ws)
  {
    var g := [p + gaps[0]] + gaps[1..];
    assert g[1..] == gaps[1..];
  }

  /** Whitespace read before a layout joins its leading gap. */
  lemma SpaceInGap(c: char, gaps: seq<string>, ws: seq<string>)
    requires IsSpace(c) && WellSpaced(gaps, ws)
    ensures var g := [[c] + gaps[0]] + gaps[1..];
            WellSpaced(g, ws) && Layout(g, ws) == [c] + Layout(gaps, ws)
  {
    LayoutPrepend([c], gaps, ws);
    var g := [[c] + gaps[0]] + gaps[1..];
    assert forall i :: 0 < i < |g| ==> g[i] == gaps[i];
  }

  /** A word followed by a non-empty gap starts a layout with one more word. */
  lemma WordThenGap(w: string, gaps: seq<string>, ws: seq<string>)
    requires IsWord(w) && WellSpaced(gaps, ws) && |gaps[0]| > 0
    ensures var g := [[]] + gaps;
            WellSpaced(g, [w] + ws) && Layout(g, [w] + ws) == w + Layout(gaps, ws)
  {
    var g := [[]] + gaps;
    assert g[1..] == gaps && ([w] + ws)[1..] == ws;
    assert forall i :: 0 < i < |g| ==> g[i] == gaps[i - 1];
    assert forall j :: 0 < j < |[w] + ws| ==> ([w] + ws)[j] == ws[j - 1];
    assert Layout(g, [w] + ws) == [] + w + Layout(gaps, ws);
  }

  /** `line` is the words `ws` laid out with whitespace, starting with the
      first word when `flush` holds. */
  ghost predicate LaidOut(line: string, ws: seq<string>, flush: bool)
  {
    exists gaps :: WellSpaced(gaps, ws) && Layout(gaps, ws) == line && (flush ==> |gaps[0]| == 0)
  }

  /** A single word is a line of its own. */
  lemma LayoutOfWord(w: string)
    requires IsWord(w)
    ensures LaidOut(w, [w], true)
  {
    var gaps: seq<string> := [[], []];
    assert gaps[1..] == [[]] && [w][1..] == [];
    assert Layout(gaps, [w]) == [] + w + [];
    assert WellSpaced(gaps, [w]);
  }

  /** At the end of the line the token read so far, if any, is the last word. */
  lemma LayoutAtEnd(cur: string)
    requires forall i :: 0 <= i < |cur| ==> !IsSpace(cur[i])
    ensures LaidOut(cur, SplitFrom([], cur), |cur| > 0)
  {
    if |cur| == 0 {
      assert WellSpaced([[]], []) && Layout([[]], []) == cur;
    } else {
      LayoutOfWord(cur);
    }
  }

  /** Whitespace in front of a laid-out line is a non-empty leading gap. */
  lemma SpaceLead(s: string, ws: seq<string>)
    requires |s| > 0 && IsSpace(s[0]) && LaidOut(s[1..], ws, false)
    ensures exists gaps :: WellSpaced(gaps, ws) && Layout(gaps, ws) == s && |gaps[0]| > 0
  {
    var g :| WellSpaced(g, ws) && Layout(g, ws) == s[1..];
    SpaceInGap(s[0], g, ws);
    assert [s[0]] + s[1..] == s;
    var lead := [[s[0]] + g[0]] + g[1..];
    assert WellSpaced(lead, ws) && Layout(lead, ws) == s && |lead[0]| > 0;
  }

  /** A word in front of a line that starts with whitespace is its first
      word. */
  lemma WordBeforeSpace(w: string, s: string, ws: seq<string>)
    requires IsWord(w)
    requires exists gaps :: WellSpaced(gaps, ws) && Layout(gaps, ws) == s && |gaps[0]| > 0
    ensures LaidOut(w + s, [w] + ws, true)
  {
    var lead :| WellSpaced(lead, ws) && Layout(lead, ws) == s && |lead[0]| > 0;
    WordThenGap(w, lead, ws);
    assert WellSpaced([[]] + lead, [w] + ws) && Layout([[]] + lead, [w] + ws) == w + s;
  }

  /** A whitespace character ends the token read so far and joins the gap
      in front of the rest of the line. */
  lemma LayoutAtSpace(s: string, cur: string)
    requires |s| > 0 && IsSpace(s[0])
    requires forall i :: 0 <= i < |cur| ==> !IsSpace(cur[i])
    requires LaidOut(s[1..], SplitFrom(s[1..], []), false)
    ensures LaidOut(cur + s, SplitFrom(s, cur), |cur| > 0)
  {
    var rest := SplitFrom(s[1..], []);
    SpaceLead(s, rest);
    if |cur| == 0 {
      assert SplitFrom(s, cur) == rest && cur + s == s;
    } else {
      WordBeforeSpace(cur, s, rest);
      assert SplitFrom(s, cur) == [cur] + rest;
    }
  }

  /** The part of a line read so far, followed by the rest, is laid out as
      the tokens the split produces. */
  lemma {:induction false} SplitFromLayout(s: string, cur: string)
    requires forall i :: 0 <= i < |cur| ==> !IsSpace(cur[i])
    ensures LaidOut(cur + s, SplitFrom(s, cur), |cur| > 0)
    decreases |s|
  {
    if |s| == 0 {
      LayoutAtEnd(cur);
      assert cur + s == cur;
    } else if IsSpace(s[0]) {
      SplitFromLayout(s[1..], []);
      assert [] + s[1..] == s[1..];
      LayoutAtSpace(s, cur);
    } else {
      SplitFromLayout(s[1..], cur + [s[0]]);
      assert cur + [s[0]] + s[1..] == cur + s;
    }
  }

  /** Reading leading whitespace produces no token. */
  lemma {:induction false} SplitFromBlank(b: string, rest: string)
    requires IsBlank(b)
    ensures SplitFrom(b + rest, []) == SplitFrom(rest, [])
    decreases |b|
  {
    if |b| > 0 {
      assert (b + rest)[0] == b[0] && (b + rest)[1..] == b[1..] + rest;
      SplitFromBlank(b[1..], rest);
    } else {
      assert b + rest == rest;
    }
  }

  /** Reading a word continues the current token. */
  lemma {:induction false} SplitFromWord(w: string, rest: string, cur: string)
    requires forall i :: 0 <= i < |cur| ==> !IsSpace(cur[i])
    requires forall i :: 0 <= i < |w| ==> !IsSpace(w[i])
    ensures SplitFrom(w + rest, cur) == SplitFrom(rest, cur + w)
    decreases |w|
  {
    if |w| > 0 {
      assert (w + rest)[1..] == w[1..] + rest;
      assert cur + [w[0]] + w[1..] == cur + w;
      SplitFromWord(w[1..], rest, cur + [w[0]]);
    } else {
      assert w + rest == rest;
      assert cur + w == cur;
    }
  }

  /** The first character of a non-empty leading gap, and the rest. */
  lemma LayoutTail(gaps: seq<string>, ws: seq<string>)
    requires |gaps| == |ws| + 1 && |gaps[0]| > 0
    ensures var line := Layout(gaps, ws);
            |line| > 0 && line[0] == gaps[0][0] &&
            line[1..] == Layout([gaps[0][1..]] + gaps[1..], ws)
  {
    var g := [gaps[0][1..]] + gaps[1..];
    assert g[1..] == gaps[1..];
    LayoutPrepend([gaps[0][0]], g, ws);
    assert [gaps[0][0]] + g[0] == gaps[0];
    assert [[gaps[0][0]] + g[0]] + g[1..] == gaps;
  }

  /** Dropping a word and the first blank of the gap after it keeps the
      layout well spaced. */
  lemma WellSpacedTrim(gaps: seq<string>, ws: seq<string>)
    requires WellSpaced(gaps, ws) && |ws| > 0 && |gaps[1]| > 0
    ensures WellSpaced([gaps[1][1..]] + gaps[2..], ws[1..])
  {
    var g := [gaps[1][1..]] + gaps[2..];
    assert forall i :: 0 < i < |g| ==> g[i] == gaps[i + 1];
    assert forall j :: 0 <= j < |ws[1..]| ==> ws[1..][j] == ws[j + 1];
  }

  /** Splitting undoes laying out: words written with any runs of
      whitespace between them, before them and after them are read back as
      the same words, in order. */
  lemma {:induction false} SplitLayout(gaps: seq<string>, ws: seq<string>)
    requires WellSpaced(gaps, ws)
    ensures Split(Layout(gaps, ws)) == ws
    decreases |ws|
  {
    if |ws| == 0 {
      SplitFromBlank(gaps[0], []);
      assert gaps[0] + [] == gaps[0];
    } else {
      var tail := Layout(gaps[1..], ws[1..]);
      assert Layout(gaps, ws) == gaps[0] + (ws[0] + tail);
      SplitFromBlank(gaps[0], ws[0] + tail);
      SplitFromWord(ws[0], tail, []);
      assert [] + ws[0] == ws[0];
      if |gaps[1]| == 0 {
        assert |ws| == 1 && tail == [];
      } else {
        var gaps' := [gaps[1][1..]] + gaps[2..];
        LayoutTail(gaps[1..], ws[1..]);
        assert gaps[1..][1..] == gaps[2..];
        assert tail[1..] == Layout(gaps', ws[1..]);
        WellSpacedTrim(gaps, ws);
        SplitLayout(gaps', ws[1..]);
        assert ws == [ws[0]] + ws[1..];
      }
    }
  }

  /** The tokens of a line are exactly the words of its layouts. */
  lemma SplitCharacterised(s: string, ws: seq<string>)
    ensures Split(s) == ws <==> exists gaps :: WellSpaced(gaps, ws) && Layout(gaps, ws) == s
  {
    if exists gaps :: WellSpaced(gaps, ws) && Layout(gaps, ws) == s {
      var gaps :| WellSpaced(gaps, ws) && Layout(gaps, ws) == s;
      SplitLayout(gaps, ws);
    }
  }

  /** A line without leading whitespace begins with its first word. */
  lemma LayoutPrefix(gaps: seq<string>, ws: seq<string>)
    requires |gaps| == |ws| + 1 && |ws| > 0 && |gaps[0]| == 0
    ensures |ws[0]| <= |Layout(gaps, ws)| && Layout(gaps, ws)[..|ws[0]|] == ws[0]
  {
    assert Layout(gaps, ws) == ws[0] + Layout(gaps[1..], ws[1..]);
  }

  /** `s.startswith(p)`. */
  predicate StartsWith(s: string, p: string)
  {
    |p| <= |s| && s[..|p|] == p
  }

  /** `s.endswith(p)`. */
  predicate EndsWith(s: string, p: string)
  {
    |p| <= |s| && s[|s| - |p|..] == p
  }

  /** Python's `s[a:b]` for 0 <= a <= b: bounds past the end are clamped, so a
      short line yields a short or empty field instead of an error. */
  function Slice(s: string, a: nat, b: nat): (r: string)
    requires a <= b
    ensures b <= |s| ==> r == s[a..b]
    ensures |s| <= a ==> r == []
    ensures a < |s| < b ==> r == s[a..]
  {
    var lo := if a < |s| then a else |s|;
    var hi := if b < |s| then b else |s|;
    s[lo..hi]
  }

  /** `str.lower()` on the characters that can fold onto the letters of a
      ".cif" or ".pdb" suffix: only the ASCII capitals do. */
  function LowerAscii(s: string): (r: string)
    ensures |r| == |s|
  {
    seq(|s|, i requires 0 <= i < |s| =>
      if 'A' <= s[i] <= 'Z' then (s[i] as int + 32) as char else s[i])
  }
}
